=== FILE: README.md ===
# tiny-xml in Dafny

A model of the logic in `TinyXml` (`src/lib/tiny-xml.ts`), a small facade over
an XML parser and an XPath engine. The model covers the four pure pieces of
that class:

- **Namespace injection.** `composeExpressionWithNamespace` rewrites an XPath
  expression with `expression.replace(/(\/+)(.+\[.+])?/g, "$1" + namespace + ":$2")`.
  The model follows JavaScript's own steps:
  - the global search: a leftmost match, with the search resuming after it;
  - the backtracking of the two greedy `.+` inside the optional group;
  - `.` stopping at line terminators;
  - the expansion of the replacement template, as the GetSubstitution
    operation of ECMA-262 defines it.
  The main results are these:
  - For a namespace without `$`, the rewrite inserts `namespace:` right after
    each matched slash run and changes nothing else.
  - The matches are exactly what a leftmost scan finds.
  - The optional group always ends at the last `]` of the line. That is the
    first success the backtracking search reaches, so slash runs inside it
    get no prefix.
  - Without any `[`, every run of slashes gets the prefix.
- **Expression selection.** `findElement` and `findElements` apply the rewrite
  only when the namespace is truthy. A call is modelled by the query it hands
  to `xpath.select`: the expression and the `single` flag.
- **`getValue` / `getTagName`.** These read a node through `getRecursive`, so
  they are modelled over a JavaScript value datatype (`JsValue.Value`).
  - `getValue` is a first-match loop over `childNodes`.
  - A DOM node is also given a structured form (`NodeAccessors.DomNode`) and an
    object encoding. Over the encoding, both accessors are proved to return
    the first text child and the tag name.
- **`getRecursive`.** This is a nested property read driven by a key array,
  in these steps:
  - `String(path)` joins the keys with commas.
  - The text is split on `/[,[\]]+?/` and empty pieces are dropped
    (`filter(Boolean)`).
  - The pieces are folded by a `reduce` that passes `null`/`undefined` along.
  - When the first pass is falsy, a fallback pass also splits at `.`.
  - Finally `undefined`, or the object itself, becomes the default.

Modules: `Wrappers` (Option), `JsValue` (values, truthiness, decimal
rendering), `PathSplit` (regex split, `filter(Boolean)`, `join`),
`PropertyPath` (`getRecursive`), `NodeAccessors` (`getValue`, `getTagName`),
`Substitution` (replacement templates), `XPathNamespace` (the rewrite), and
`TinyXml` (the facade's choice of expression).

Two consequences of the code are worth knowing:

- The rewrite does not prefix every step. `/a/b[@id='1']` with namespace `ns`
  becomes `/ns:a/b[@id='1']`, because the optional group `(.+\[.+])` swallows
  everything up to the last `]` of the line
  (`XPathNamespace.ExamplePredicateSwallowsStep`).
- For keys without `,`, `[`, `]` or `.`, a `null` met along the walk of
  `getRecursive` is returned as `null`, not as the default, because only
  `undefined` and the object itself are mapped to the default. This holds
  unless `obj` itself is `null` (`PropertyPath.GetRecursiveNullIntermediate`).
  Dotted keys are different: with `{"a.b": null, "a": {"b": 1}}` and the path
  `["a.b"]`, the first pass ends on `null`, which is falsy, so the fallback pass runs
  and finds `1` (`PropertyPath.DottedKeyFallback`).

## Model

| member | source | states |
|---|---|---|
| `XPathNamespace.ComposeWithNamespace` | src/lib/tiny-xml.ts:42-45 | for a namespace without `$`, the result is the expression with `namespace:` inserted right after each matched slash run; an expression without `/` comes back unchanged, whatever the namespace |
| `XPathNamespace.AssembleKeepsOutside` | src/lib/tiny-xml.ts:44 | whatever the template, the result of `replace` starts with the text before the first match and ends with the text after the last one |
| `XPathNamespace.AssembleInserts` | src/lib/tiny-xml.ts:44 | splicing the replacement of each match between the unmatched stretches equals inserting `namespace:` at the run ends and keeping every input character in order |
| `XPathNamespace.ReplacementInserts` | src/lib/tiny-xml.ts:44 | one match `(slashes)(group)` is replaced by the slashes, `namespace:`, then the group, which is empty when the group did not take part |
| `XPathNamespace.GroupEnd` | src/lib/tiny-xml.ts:43 | when the group `(.+\[.+])` matches, it ends just after a `]`, holds a `[` that has at least one character before it and one before the `]`, stays within one line, and leaves no `]` after it on that line |
| `XPathNamespace.MatchGroup` | src/lib/tiny-xml.ts:43 | the backtracking search of `.+\[.+]` (the first `.+` gives back one character at a time, then the second) stops where `GroupEnd` says |
| `XPathNamespace.GroupEndIsFirstSplit` | src/lib/tiny-xml.ts:43 | the group fails exactly when no `[`…`]` split fits on the line, and otherwise ends at the split that backtracking reaches first: rightmost `[`, then rightmost `]` |
| `XPathNamespace.FirstSplitEnds` | src/lib/tiny-xml.ts:43 | the first split in backtracking order fixes where the group ends |
| `XPathNamespace.LineEnd` | src/lib/tiny-xml.ts:43 | `.` stops at `\n`, `\r`, U+2028 and U+2029: the line ends at the first of them or at the end of the text |
| `XPathNamespace.RunEnd` | src/lib/tiny-xml.ts:43 | `(\/+)` takes the whole run of slashes: every character before the end is `/`, and the one at the end is not |
| `XPathNamespace.NextSlash` | src/lib/tiny-xml.ts:43-44 | the global search starts its next match at the first `/` not yet consumed |
| `XPathNamespace.MatchesFrom` | src/lib/tiny-xml.ts:43-44 | the matches of the global search come in order without overlapping, each holds at least one slash, so their run ends strictly increase, and they lie within the text |
| `XPathNamespace.MatchesFromIsLeftmostScan` | src/lib/tiny-xml.ts:43-44 | each match found is a whole slash run plus the group, starting at the first unconsumed slash, with no slash left after the last match |
| `XPathNamespace.LeftmostScanUnique` | src/lib/tiny-xml.ts:43-44 | any match list with those properties is the one the search finds |
| `XPathNamespace.MatchesStartRuns` | src/lib/tiny-xml.ts:43-44 | no match starts in the middle of a run of slashes |
| `XPathNamespace.NoBracketEveryRun` | src/lib/tiny-xml.ts:43-44 | in an expression without `[`, a position gets the prefix exactly when it ends a run of slashes |
| `XPathNamespace.MatchesIffSlash` | src/lib/tiny-xml.ts:43-44 | there is at least one match exactly when the expression has a `/` |
| `XPathNamespace.ExamplePredicateSwallowsStep` | src/lib/tiny-xml.ts:43-44 | `/a/b[@id='1']` with `ns` becomes `/ns:a/b[@id='1']` |
| `XPathNamespace.ExamplePredicateThenStep` | src/lib/tiny-xml.ts:43-44 | `/a[1]/b` with `ns` becomes `/ns:a[1]/ns:b` |
| `XPathNamespace.ExampleEveryStep` | src/lib/tiny-xml.ts:43-44 | `/a/b` with `ns` becomes `/ns:a/ns:b` |
| `XPathNamespace.ExampleDescendantAxis` | src/lib/tiny-xml.ts:43-44 | `//item` with `n` becomes `//n:item` |
| `XPathNamespace.AmpersandTemplate` | src/lib/tiny-xml.ts:44 | a namespace of `$&` makes the template yield the first group, the whole match and a colon, then the second group |
| `XPathNamespace.ExampleDollarInNamespace` | src/lib/tiny-xml.ts:44 | `/x` with namespace `$&` becomes `//:x`, because `$&` in the template stands for the match |
| `Substitution.PrefixTemplate` | src/lib/tiny-xml.ts:44 | the template `$1<prefix>:$2` expands to group 1, the prefix, a colon and group 2 when the prefix has no `$` |
| `Substitution.ExpandFirstGroup` | src/lib/tiny-xml.ts:44 | `$1` at the front of the template is group 1 even when the namespace starts with a digit, as `$1d` names no group when there are fewer than ten |
| `Substitution.ExpandPlain` | src/lib/tiny-xml.ts:44 | expanding a template stretch without `$` copies it unchanged |
| `Substitution.GetSubstitutionPlain` | src/lib/tiny-xml.ts:44 | a whole template without `$` is the replacement text itself, whatever the match |
| `Substitution.ExpandToSecondGroup` | src/lib/tiny-xml.ts:44 | a `$`-free stretch followed by a final `$2` is copied, then group 2 (empty when the group did not match) |
| `TinyXml.EnhancedExpression` | src/lib/tiny-xml.ts:20-22 | an absent or empty namespace leaves the expression unchanged; any other namespace without `$` is inserted after each matched slash run |
| `TinyXml.EnhancedExpressionChanges` | src/lib/tiny-xml.ts:32-34 | with a non-empty namespace that contains no `$`, the expression grows by the namespace plus a colon for every match, and it is unchanged exactly when it has no `/` |
| `TinyXml.FindElementQuery` | src/lib/tiny-xml.ts:18-24 | `findElement` asks for a single node. Without a namespace, or with an empty one, the expression is passed as given. With a non-empty `$`-free namespace, the namespace and a colon are inserted after every matched slash run, so the expression grows by that much per match and is unchanged exactly when it has no `/` |
| `TinyXml.FindElementsQuery` | src/lib/tiny-xml.ts:30-36 | `findElements` asks for all nodes, with the expression rewritten exactly as for `findElement` |
| `NodeAccessors.FirstPassing` | src/lib/tiny-xml.ts:58-65 | a counting loop that returns on the first index passing its test finds the lowest passing index in range, and finishes without one exactly when no index in range passes |
| `NodeAccessors.FirstTextIndexFinds` | src/lib/tiny-xml.ts:58-65 | the loop of `getValue` stops at the lowest index in range whose child has `nodeName` `"#text"` and a string `nodeValue`; it finds none exactly when no child in range passes the test |
| `NodeAccessors.LoopBound` | src/lib/tiny-xml.ts:58 | `index < length` holds for exactly the indices below the bound: a number bounds the loop itself, `true`/`false`/`null` count as 1/0/0, a decimal string as its value, and `undefined` or an object as NaN, which stops the loop at once |
| `NodeAccessors.GetValue` | src/lib/tiny-xml.ts:54-68 | an absent (falsy) node gives `undefined`; otherwise the result is `undefined` or a string |
| `NodeAccessors.GetValueFirstMatch` | src/lib/tiny-xml.ts:54-67 | on a present node the result is `undefined` exactly when no child below `childNodes.length` passes the test; otherwise it is the `nodeValue` of the first child that does |
| `NodeAccessors.GetValueIsFirstText` | src/lib/tiny-xml.ts:54-68 | on an encoded DOM node, `getValue` returns the value of the first text child, and `undefined` when there is none |
| `NodeAccessors.GetValueOfEncoded` | src/lib/tiny-xml.ts:56-58 | on an encoded node, the loop bound read from `childNodes.length` is the number of children |
| `NodeAccessors.LengthOfEncoded` | src/lib/tiny-xml.ts:56 | `getRecursive(node, ["childNodes", "length"])` on an encoded node is its number of children |
| `NodeAccessors.ReadChildProperty` | src/lib/tiny-xml.ts:59-60 | `getRecursive(node, ["childNodes", j, prop])` reads `prop` off child `j` |
| `NodeAccessors.TextChildOfEncoded` | src/lib/tiny-xml.ts:59-62 | the loop's test on an encoded node holds exactly for text children, and it reads back their text |
| `NodeAccessors.ScanEncoded` | src/lib/tiny-xml.ts:58-65 | from any index, the loop over an encoded node returns what the reference first-text search returns on the remaining children |
| `NodeAccessors.FirstTextIsScanResult` | src/lib/tiny-xml.ts:58-67 | the reference search over all children agrees with the loop run from index 0 |
| `NodeAccessors.GetTagName` | src/lib/tiny-xml.ts:70-72 | `getTagName` gives the node's own `tagName` property, and `undefined` when it has none or the node is absent |
| `NodeAccessors.GetTagNameIsTagName` | src/lib/tiny-xml.ts:70-72 | on an encoded DOM node `getTagName` returns its tag name, or `undefined` for nodes without one |
| `PropertyPath.GetRecursive` | src/lib/tiny-xml.ts:74-82 | the result is the default, or a value that is neither `undefined` nor the object itself |
| `PropertyPath.Travel` | src/lib/tiny-xml.ts:75-79 | with keys no delimiter can split, either pass walks the non-empty keys in order |
| `PropertyPath.Walk` | src/lib/tiny-xml.ts:79 | once the fold reaches `null` or `undefined` it stays there, and a fold that starts from a primitive yields `undefined` |
| `PropertyPath.GetRecursivePlain` | src/lib/tiny-xml.ts:74-81 | for keys without delimiters, both passes walk the non-empty keys in order, so the lookup is the structured walk |
| `PropertyPath.GetRecursiveTwoNames` | src/lib/tiny-xml.ts:74-81 | a lookup of two plain names is two property reads |
| `PropertyPath.GetRecursiveIndexed` | src/lib/tiny-xml.ts:74-81 | a lookup of `[a, i, c]` reads `a`, then the property named by the decimal rendering of `i`, then `c` |
| `PropertyPath.GetRecursiveNoSegments` | src/lib/tiny-xml.ts:76-81 | a key list that leaves no segment (the empty list, say) ends at the object itself and yields the default |
| `PropertyPath.GetRecursiveNullIntermediate` | src/lib/tiny-xml.ts:79-81 | for keys without `,`, `[`, `]` or `.`, a `null` met along the walk is returned as `null`, not replaced by the default (unless `obj` itself is `null`) |
| `PropertyPath.DottedKeyFallback` | src/lib/tiny-xml.ts:80 | a key `a.b` is first read as one property; only when that is falsy is it read as `a`, then `b` |
| `PropertyPath.WalkAppend` | src/lib/tiny-xml.ts:79 | folding over a concatenation of keys folds over the parts in turn |
| `PropertyPath.NullIntermediateStopsWalk` | src/lib/tiny-xml.ts:79 | a `null` after some prefix of the keys is the result of the whole fold |
| `PathSplit.Split` | src/lib/tiny-xml.ts:76-77 | no piece contains a delimiter, the piece lengths plus one per separator add up to the length of the text, and a text without delimiters is its own single piece |
| `PathSplit.NonEmpty` | src/lib/tiny-xml.ts:78 | `filter(Boolean)` leaves no empty string and never lengthens the list |
| `PathSplit.NonEmptyMembers` | src/lib/tiny-xml.ts:78 | `filter(Boolean)` keeps exactly the non-empty strings of its input |
| `PathSplit.Join` | src/lib/tiny-xml.ts:76-77 | `String(path)` starts with the first key and is as long as the keys together plus one separator between each neighbouring pair |
| `PathSplit.SplitJoin` | src/lib/tiny-xml.ts:76-77 | splitting comma-joined keys that contain no delimiter gives the keys back |
| `PathSplit.SegmentsJoin` | src/lib/tiny-xml.ts:76-78 | after `filter(Boolean)`, splitting comma-joined plain keys gives the non-empty keys in order |
| `PathSplit.SegmentsEmpty` | src/lib/tiny-xml.ts:76-78 | no segment is left exactly when every character of the joined text is a delimiter |
| `PathSplit.SplitAtDelimiter` | src/lib/tiny-xml.ts:76-77 | each delimiter character separates: splitting `a + d + b` gives the pieces of `a` followed by those of `b` |
| `JsValue.IntToString` | src/lib/tiny-xml.ts:76-77 | an integer key renders as its decimal digits, after a minus sign when negative, and the rendering reads back as the integer |
| `JsValue.NatToStringInjective` | src/lib/tiny-xml.ts:76 | distinct child indices render as distinct property names |
| `JsValue.ParseNatToString` | src/lib/tiny-xml.ts:76 | the decimal rendering of an index reads back as that index |

## Left out

- Parsing XML with `DOMParser` (src/lib/tiny-xml.ts:13-16) is a foreign library call; documents and nodes appear only as JavaScript values.
- Evaluation by `xpath.select` (src/lib/tiny-xml.ts:24, 36) is a foreign library call. The finders are modelled by the query they issue.
- The `./extendElement` module that the finders call (src/lib/tiny-xml.ts:3, 25, 37) is not part of this model.
- The class's own `extendElement` (src/lib/tiny-xml.ts:47-52) is left out. It mutates the node in place. Its accessors call `.bind` on a string or `undefined`, which would throw at call time, so it cannot be modelled as decoration that works.
- Property access in `getRecursive` reads own properties of plain objects only. A read on a primitive (a string's `length` or characters, say) or through the prototype chain gives `undefined` in the model.
- "Is the object itself" (`result === obj`) is modelled as structural equality of values. A different object with the same contents counts as the same here.
- JavaScript numbers are modelled as unbounded integers. Fractions, `NaN` and `-0` as keys or as `childNodes.length` are outside the model, and so are integers of magnitude 2^53 and above. From 2^53 on, `index += 1` no longer advances, so a `childNodes.length` above 2^53 would keep the loop of `getValue` running for good. From 10^21 on, `String(i)` switches to exponent notation, which `JsValue.IntToString` does not produce.
- NodeAccessors.LoopBound: a string `childNodes.length` is read as a number only when it is empty or all decimal digits. JavaScript also accepts surrounding white space, a sign, a fraction, an exponent, `0x`/`0o`/`0b` prefixes and `Infinity`; the model reads such strings as NaN, which ends the loop at once.
- Strings are sequences of Unicode scalar values, not UTF-16 code units. A character outside the Basic Multilingual Plane counts as one character, not two.

=== FILE: js_value.dfy ===
/**
 * The JavaScript values that the property walk of `TinyXml.getRecursive`
 * can meet, JavaScript truthiness, property access, and the decimal
 * rendering that `Array.prototype.join` applies to integer keys.
 */
module JsValue {
  import opened Wrappers

  /** Numbers are integers here; objects are plain property maps without a
      prototype chain, and "the same object" is structural equality. */
  datatype Value =
    | Undefined
    | Null
    | Bool(b: bool)
    | Num(n: int)
    | Str(s: string)
    | Obj(props: map<string, Value>)

  /** `null` and `undefined`: the values the walk stops at. */
  predicate IsNullish(v: Value) {
    v.Undefined? || v.Null?
  }

  /** ToBoolean: what `||`, `!` and `filter(Boolean)` test. */
  predicate Truthy(v: Value) {
    match v
    case Undefined => false
    case Null => false
    case Bool(b) => b
    case Num(n) => n != 0
    case Str(s) => s != ""
    case Obj(_) => true
  }

  /** Property access `v[key]` on a value that is neither null nor undefined
      (JavaScript throws on those). Own properties of an object are found;
      anything else reads as undefined. */
  function Get(v: Value, key: string): (r: Value)
    requires !IsNullish(v)
    ensures v.Obj? && key in v.props ==> r == v.props[key]
    ensures !(v.Obj? && key in v.props) ==> r == Undefined
  {
    if v.Obj? && key in v.props then v.props[key] else Undefined
  }

  predicate IsDigit(c: char) {
    '0' <= c <= '9'
  }

  function DigitChar(d: nat): (c: char)
    requires d < 10
    ensures IsDigit(c)
  {
    ('0' as int + d) as char
  }

  /** The value of a decimal digit. */
  function DigitValue(c: char): (d: nat)
    requires IsDigit(c)
    ensures d < 10 && DigitChar(d) == c
  {
    c as int - '0' as int
  }

  /** A string of decimal digits (the empty string included). */
  predicate IsDecimal(s: string) {
    forall j :: 0 <= j < |s| ==> IsDigit(s[j])
  }

  /** Decimal rendering of a natural number, without leading zeros. */
  function NatToString(n: nat): (s: string)
    ensures |s| >= 1 && IsDecimal(s)
  {
    if n < 10 then [DigitChar(n)] else NatToString(n / 10) + [DigitChar(n % 10)]
  }

  /** `String(i)` for an integer-valued number: a non-negative number is its
      decimal digits, a negative one a minus sign before the digits of its
      magnitude; either reads back as the number. */
  function IntToString(i: int): (s: string)
    ensures |s| >= 1
    ensures i >= 0 ==> IsDecimal(s) && ParseDecimal(s) == i
    ensures i < 0 ==> |s| >= 2 && s[0] == '-' && IsDecimal(s[1..]) && ParseDecimal(s[1..]) == -i
  {
    if i < 0 then
      ParseNatToString(-i);
      var s := "-" + NatToString(-i);
      assert s[1..] == NatToString(-i);
      s
    else
      ParseNatToString(i);
      NatToString(i)
  }

  /** Reads a string of decimal digits back as a number. */
  function ParseDecimal(s: string): nat
    requires IsDecimal(s)
  {
    if |s| == 0 then 0
    else
      assert IsDigit(s[|s| - 1]);
      ParseDecimal(s[..|s| - 1]) * 10 + DigitValue(s[|s| - 1])
  }

  /** Reading the rendering back gives the number. */
  lemma {:induction false} ParseNatToString(n: nat)
    ensures ParseDecimal(NatToString(n)) == n
  {
    if n >= 10 {
      var s := NatToString(n);
      assert s[..|s| - 1] == NatToString(n / 10);
      ParseNatToString(n / 10);
    }
  }

  /** ToNumber, with `None` standing for NaN. A string is read only when it
      is empty (zero) or all decimal digits; any other string gives NaN. */
  function ToNumber(v: Value): Option<int> {
    match v
    case Undefined => None
    case Null => Some(0)
    case Bool(b) => Some(if b then 1 else 0)
    case Num(n) => Some(n)
    case Str(s) => if IsDecimal(s) then Some(ParseDecimal(s)) else None
    case Obj(_) => None
  }

  /** The relational comparison `i < v` for a number `i`: false when `v`
      converts to NaN. */
  predicate LessThan(i: int, v: Value) {
    ToNumber(v).Some? && i < ToNumber(v).value
  }

  /** Distinct indices render as distinct property names. */
  lemma NatToStringInjective()
    ensures forall a: nat, b: nat :: NatToString(a) == NatToString(b) ==> a == b
  {
    forall a: nat, b: nat | NatToString(a) == NatToString(b) ensures a == b {
      ParseNatToString(a);
      ParseNatToString(b);
    }
  }
}

=== FILE: node_accessors.dfy ===
/**
 * `TinyXml.getValue` and `TinyXml.getTagName`: the two accessors the facade
 * means to attach to returned nodes. Both read the node through
 * `getRecursive`, so they are modelled on JavaScript values; a DOM node is
 * given a structured form (`DomNode`) and its object encoding, against which
 * the accessors are proved to do what they are for.
 */
module NodeAccessors {
  import opened Wrappers
  import opened JsValue
  import opened PathSplit
  import opened PropertyPath

  /** The key array `["childNodes", index, prop]`. */
  function ChildPath(index: int, prop: string): seq<Key> {
    [Name("childNodes"), Index(index), Name(prop)]
  }

  /** The key array `["childNodes", "length"]`. */
  const LengthPath: seq<Key> := [Name("childNodes"), Name("length")]

  /** The `nodeValue` the loop reads for child `index`. */
  function ValueAt(node: Value, index: int): Value {
    GetRecursive(node, ChildPath(index, "nodeValue"), Undefined)
  }

  /** The loop's test: `nodeName === "#text" && typeof nodeValue === "string"`. */
  predicate IsTextChildAt(node: Value, index: int) {
    && GetRecursive(node, ChildPath(index, "nodeName"), Undefined) == Str("#text")
    && ValueAt(node, index).Str?
  }

  /** The loop's test, as a function of the index. */
  function ChildTest(node: Value): int -> bool {
    j => IsTextChildAt(node, j)
  }

  lemma ChildTestIs(node: Value)
    ensures forall j :: ChildTest(node)(j) == IsTextChildAt(node, j)
  {
  }

  /** A loop `for (j = index; j < bound; j += 1) if (test(j)) return j;`:
      it returns the first index in `[index, bound)` that passes `test`, and
      finishes without one exactly when none there passes it. */
  function FirstPassing(test: int -> bool, bound: int, index: int): (r: Option<int>)
    ensures r.None? <==> forall j :: index <= j < bound ==> !test(j)
    ensures r.Some? ==> index <= r.value < bound && test(r.value)
    ensures r.Some? ==> forall k :: index <= k < r.value ==> !test(k)
    decreases bound - index
  {
    if index >= bound then None
    else if test(index) then Some(index)
    else FirstPassing(test, bound, index + 1)
  }

  /** The loop of `getValue` from iteration `index` on. */
  function FirstTextIndex(node: Value, bound: int, index: int): Option<int> {
    FirstPassing(ChildTest(node), bound, index)
  }

  /** The loop finds the first child in `[index, bound)` that passes the
      test, and finds nothing exactly when no child there passes it. */
  lemma FirstTextIndexFinds(node: Value, bound: int, index: int)
    ensures var r := FirstTextIndex(node, bound, index);
            && (r.None? <==> forall j :: index <= j < bound ==> !IsTextChildAt(node, j))
            && (r.Some? ==> index <= r.value < bound && IsTextChildAt(node, r.value))
            && (r.Some? ==> forall k :: index <= k < r.value ==> !IsTextChildAt(node, k))
  {
    ChildTestIs(node);
  }

  /** The number of iterations of `for (index = 0; index < length; index += 1)`:
      the loop runs for exactly the indices `i` with `i < length`. */
  function LoopBound(length: Value): (r: nat)
    ensures forall i: nat :: i < r <==> LessThan(i, length)
  {
    match ToNumber(length)
    case None => 0
    case Some(n) => if n < 0 then 0 else n
  }

  /** `getValue(node)`: the value of the first text child, if any. */
  function GetValue(node: Value): (r: Value)
    ensures !Truthy(node) ==> r == Undefined
    ensures r.Undefined? || r.Str?
  {
    if !Truthy(node) then Undefined
    else
      FirstTextIndexFinds(node, ChildCount(node), 0);
      ScanResult(node, FirstTextIndex(node, ChildCount(node), 0))
  }

  /** What the loop returns once it has stopped at `scan`. */
  function ScanResult(node: Value, scan: Option<int>): Value {
    match scan
    case None => Undefined
    case Some(j) => ValueAt(node, j)
  }

  /** The loop bound `getValue` computes from `childNodes.length`. */
  function ChildCount(node: Value): int {
    LoopBound(GetRecursive(node, LengthPath, Undefined))
  }

  /** `getValue` is a first-match search: on a present node it returns the
      `nodeValue` of the lowest-indexed child passing the test, and
      undefined exactly when no child below the bound passes it. */
  lemma GetValueFirstMatch(node: Value)
    requires Truthy(node)
    ensures GetValue(node).Undefined? <==>
              forall j :: 0 <= j < ChildCount(node) ==> !IsTextChildAt(node, j)
    ensures GetValue(node).Str? ==>
              exists j :: FirstTextChild(node, ChildCount(node), j) && GetValue(node) == ValueAt(node, j)
  {
    var r := FirstTextIndex(node, ChildCount(node), 0);
    FirstTextIndexFinds(node, ChildCount(node), 0);
    if r.Some? {
      assert FirstTextChild(node, ChildCount(node), r.value);
    }
  }

  /** Child `j` is the first below `bound` that passes the loop's test. */
  ghost predicate FirstTextChild(node: Value, bound: int, j: int) {
    && 0 <= j < bound
    && IsTextChildAt(node, j)
    && forall k :: 0 <= k < j ==> !IsTextChildAt(node, k)
  }

  /** `getTagName(node)`: the node's own `tagName` property. */
  function GetTagName(node: Value): (r: Value)
    ensures node.Obj? && "tagName" in node.props ==> r == node.props["tagName"]
    ensures !(node.Obj? && "tagName" in node.props) ==> r == Undefined
  {
    if Truthy(node) then
      GetRecursivePlain(node, [Name("tagName")], Undefined);
      assert NonEmpty(KeyTexts([Name("tagName")])) == ["tagName"];
      GetRecursive(node, [Name("tagName")], Undefined)
    else Undefined
  }

  /** A DOM node as the accessors see it: `nodeValue` is a string for text
      nodes and null otherwise; `tagName` exists on elements only. */
  datatype DomNode = DomNode(
    nodeName: string,
    nodeValue: Option<string>,
    tagName: Option<string>,
    childNodes: seq<DomNode>)

  /** The node as a JavaScript object. */
  function Encode(n: DomNode): Value
    decreases n
  {
    var props := map[
      "nodeName" := Str(n.nodeName),
      "nodeValue" := (if n.nodeValue.Some? then Str(n.nodeValue.value) else Null),
      "childNodes" := EncodeList(n.childNodes)];
    Obj(if n.tagName.Some? then props["tagName" := Str(n.tagName.value)] else props)
  }

  /** A NodeList: children under their decimal indices, plus `length`. */
  function EncodeList(cs: seq<DomNode>): Value
    decreases cs
  {
    NatToStringInjective();
    Obj((map j | 0 <= j < |cs| :: NatToString(j) := Encode(cs[j]))["length" := Num(|cs|)])
  }

  /** What `getValue` is for: the first child that is a text node. */
  function FirstText(cs: seq<DomNode>): Value {
    if |cs| == 0 then Undefined
    else if cs[0].nodeName == "#text" && cs[0].nodeValue.Some? then Str(cs[0].nodeValue.value)
    else FirstText(cs[1..])
  }

  lemma ChildOfEncodedList(cs: seq<DomNode>, j: nat)
    requires j < |cs|
    ensures EncodeList(cs).props[NatToString(j)] == Encode(cs[j])
  {
    var s := NatToString(j);
    assert s != "length" by {
      assert IsDigit(s[0]);
    }
    NatToStringInjective();
    var m := map j | 0 <= j < |cs| :: NatToString(j) := Encode(cs[j]);
    assert s in m;
  }

  /** The properties an encoded node carries. */
  lemma EncodedProps(n: DomNode)
    ensures "childNodes" in Encode(n).props && Encode(n).props["childNodes"] == EncodeList(n.childNodes)
    ensures "nodeName" in Encode(n).props && Encode(n).props["nodeName"] == Str(n.nodeName)
    ensures "nodeValue" in Encode(n).props
    ensures Encode(n).props["nodeValue"] == if n.nodeValue.Some? then Str(n.nodeValue.value) else Null
    ensures ("tagName" in Encode(n).props) == n.tagName.Some?
    ensures n.tagName.Some? ==> Encode(n).props["tagName"] == Str(n.tagName.value)
  {
  }

  /** The property names the accessors read contain no delimiter. */
  lemma PropertyNamesPlain()
    ensures FreeOf("childNodes", SecondDelims) && FreeOf("length", SecondDelims)
    ensures FreeOf("nodeName", SecondDelims) && FreeOf("nodeValue", SecondDelims)
    ensures FreeOf("tagName", SecondDelims)
  {
  }

  /** Reading `["childNodes", j, prop]` off an encoded node reads `prop` off
      its child `j`. */
  lemma ReadChildProperty(n: DomNode, j: nat, prop: string)
    requires j < |n.childNodes|
    requires prop == "nodeName" || prop == "nodeValue"
    ensures GetRecursive(Encode(n), ChildPath(j, prop), Undefined)
              == Finish(Encode(n.childNodes[j]).props[prop], Encode(n), Undefined)
  {
    var child := Encode(n.childNodes[j]);
    PropertyNamesPlain();
    GetRecursiveIndexed(Encode(n), "childNodes", j, prop, Undefined);
    EncodedProps(n);
    assert Step(Encode(n), "childNodes") == EncodeList(n.childNodes);
    ChildOfEncodedList(n.childNodes, j);
    assert Step(EncodeList(n.childNodes), NatToString(j)) == child;
    EncodedProps(n.childNodes[j]);
    assert Step(child, prop) == child.props[prop];
  }

  /** The test of the loop, on an encoded node, is "child j is a text node". */
  lemma TextChildOfEncoded(n: DomNode, j: nat)
    requires j < |n.childNodes|
    ensures IsTextChildAt(Encode(n), j) ==
              (n.childNodes[j].nodeName == "#text" && n.childNodes[j].nodeValue.Some?)
    ensures n.childNodes[j].nodeValue.Some? ==>
              ValueAt(Encode(n), j) == Str(n.childNodes[j].nodeValue.value)
  {
    var node, child := Encode(n), n.childNodes[j];
    assert GetRecursive(node, ChildPath(j, "nodeName"), Undefined) == Str(child.nodeName) by {
      ReadChildProperty(n, j, "nodeName");
      EncodedProps(child);
    }
    assert ValueAt(node, j) == (if child.nodeValue.Some? then Str(child.nodeValue.value) else Null) by {
      ReadChildProperty(n, j, "nodeValue");
      EncodedProps(child);
    }
  }

  /** The loop over an encoded node stops where the reference search does. */
  lemma {:induction false} ScanEncoded(n: DomNode, index: nat)
    requires index <= |n.childNodes|
    ensures var r := FirstTextIndex(Encode(n), |n.childNodes|, index);
            && (r.None? ==> FirstText(n.childNodes[index..]) == Undefined)
            && (r.Some? ==> FirstText(n.childNodes[index..]) == ValueAt(Encode(n), r.value))
    decreases |n.childNodes| - index
  {
    var cs := n.childNodes;
    if index < |cs| {
      ChildTestIs(Encode(n));
      TextChildOfEncoded(n, index);
      ScanEncoded(n, index + 1);
      assert cs[index..][1..] == cs[index + 1..];
    }
  }

  /** `childNodes.length` of an encoded node is its number of children. */
  lemma LengthOfEncoded(n: DomNode)
    ensures ChildCount(Encode(n)) == |n.childNodes|
  {
    var node, list := Encode(n), EncodeList(n.childNodes);
    assert GetRecursive(node, LengthPath, Undefined)
        == Finish(Step(Step(node, "childNodes"), "length"), node, Undefined) by {
      PropertyNamesPlain();
      GetRecursiveTwoNames(node, "childNodes", "length", Undefined);
    }
    assert Step(node, "childNodes") == list by {
      EncodedProps(n);
    }
    assert Step(list, "length") == Num(|n.childNodes|);
  }

  /** On an encoded node the loop runs once per child. */
  lemma GetValueOfEncoded(n: DomNode)
    ensures GetValue(Encode(n)) == ScanResult(Encode(n), FirstTextIndex(Encode(n), |n.childNodes|, 0))
  {
    var node := Encode(n);
    assert ChildCount(node) == |n.childNodes| by {
      LengthOfEncoded(n);
    }
    assert Truthy(node);
  }

  /** The reference search agrees with the loop run from the first child. */
  lemma FirstTextIsScanResult(n: DomNode)
    ensures FirstText(n.childNodes) == ScanResult(Encode(n), FirstTextIndex(Encode(n), |n.childNodes|, 0))
  {
    ScanEncoded(n, 0);
    assert n.childNodes[0..] == n.childNodes;
  }

  /** `getValue` on a node returns the value of its first text child, and
      undefined when it has none. */
  lemma GetValueIsFirstText(n: DomNode)
    ensures GetValue(Encode(n)) == FirstText(n.childNodes)
  {
    GetValueOfEncoded(n);
    FirstTextIsScanResult(n);
  }

  /** `getTagName` on a node returns its tag name, and undefined when it
      has none. */
  lemma GetTagNameIsTagName(n: DomNode)
    ensures GetTagName(Encode(n))
              == if n.tagName.Some? then Str(n.tagName.value) else Undefined
  {
  }
}

=== FILE: path_split.dfy ===
/**
 * The string handling inside `TinyXml.getRecursive`: the key array is
 * turned into a string by `Array.prototype.join` (comma separated), split
 * with a one-character delimiter class (`/[,[\]]+?/` or `/[,[\].]+?/`; the
 * lazy `+?` makes every delimiter character its own separator), and the
 * empty pieces are dropped by `filter(Boolean)`.
 */
module PathSplit {

  /** The total number of characters in `words`. */
  function Lengths(words: seq<string>): nat {
    if |words| == 0 then 0 else |words[0]| + Lengths(words[1..])
  }

  /** The pieces of `s[i..]` between consecutive delimiter characters. No
      piece contains a delimiter, the piece lengths plus one per separator
      add up to the length of `s[i..]`, and a `s[i..]` without delimiters
      is its own single piece. */
  function SplitFrom(s: string, i: nat, delims: set<char>): (parts: seq<string>)
    requires i <= |s|
    ensures |parts| >= 1
    ensures forall j, k :: 0 <= j < |parts| && 0 <= k < |parts[j]| ==> parts[j][k] !in delims
    ensures Lengths(parts) + |parts| - 1 == |s| - i
    ensures (forall k :: i <= k < |s| ==> s[k] !in delims) ==> parts == [s[i..]]
    decreases |s| - i
  {
    if i == |s| then assert s[i..] == ""; [""]
    else
      var rest := SplitFrom(s, i + 1, delims);
      assert (forall k :: i <= k < |s| ==> s[k] !in delims) ==> rest == [s[i + 1..]] && s[i..] == [s[i]] + rest[0];
      if s[i] in delims then [""] + rest
      else [[s[i]] + rest[0]] + rest[1..]
  }

  /** `s.split(re)` for a regular expression matching exactly one character
      of `delims`. */
  function Split(s: string, delims: set<char>): (parts: seq<string>)
    ensures |parts| >= 1
    ensures forall j, k :: 0 <= j < |parts| && 0 <= k < |parts[j]| ==> parts[j][k] !in delims
    ensures Lengths(parts) + |parts| - 1 == |s|
    ensures FreeOf(s, delims) ==> parts == [s]
  {
    assert s[0..] == s;
    SplitFrom(s, 0, delims)
  }

  /** `filter(Boolean)` on strings: keeps the non-empty ones, in order. */
  function NonEmpty(parts: seq<string>): (r: seq<string>)
    ensures |r| <= |parts|
    ensures forall j :: 0 <= j < |r| ==> r[j] != ""
  {
    if |parts| == 0 then []
    else if parts[0] == "" then NonEmpty(parts[1..])
    else [parts[0]] + NonEmpty(parts[1..])
  }

  /** The path segments one traversal pass walks. */
  function Segments(s: string, delims: set<char>): seq<string> {
    NonEmpty(Split(s, delims))
  }

  /** `Array.prototype.join(sep)` over already stringified elements: the
      first word comes first, and one separator stands between each pair. */
  function Join(words: seq<string>, sep: char): (r: string)
    ensures |words| >= 1 ==> words[0] <= r && |r| == Lengths(words) + |words| - 1
  {
    if |words| == 0 then ""
    else if |words| == 1 then words[0]
    else words[0] + [sep] + Join(words[1..], sep)
  }

  /** No character of `w` is a delimiter. */
  predicate FreeOf(w: string, delims: set<char>) {
    forall k :: 0 <= k < |w| ==> w[k] !in delims
  }

  lemma {:induction false} NonEmptyConcat(a: seq<string>, b: seq<string>)
    ensures NonEmpty(a + b) == NonEmpty(a) + NonEmpty(b)
  {
    if |a| == 0 {
      assert a + b == b;
    } else {
      assert (a + b)[0] == a[0];
      assert (a + b)[1..] == a[1..] + b;
      NonEmptyConcat(a[1..], b);
    }
  }

  /** `filter(Boolean)` keeps exactly the non-empty strings: each kept
      string is one of the inputs, and each non-empty input is kept. */
  lemma {:induction false} NonEmptyMembers(parts: seq<string>)
    ensures forall w :: w in NonEmpty(parts) <==> w in parts && w != ""
  {
    if |parts| > 0 {
      NonEmptyMembers(parts[1..]);
      assert parts == [parts[0]] + parts[1..];
    }
  }

  /** Without empty strings there is nothing to drop. */
  lemma {:induction false} NonEmptyKeepsAll(parts: seq<string>)
    requires forall j :: 0 <= j < |parts| ==> parts[j] != ""
    ensures NonEmpty(parts) == parts
  {
    if |parts| > 0 {
      NonEmptyKeepsAll(parts[1..]);
      assert [parts[0]] + parts[1..] == parts;
    }
  }

  /** Splitting the tail of `x + y` inside `y` only sees `y`. */
  lemma {:induction false} SplitFromSuffix(x: string, y: string, j: nat, delims: set<char>)
    requires j <= |y|
    ensures SplitFrom(x + y, |x| + j, delims) == SplitFrom(y, j, delims)
    decreases |y| - j
  {
    if j < |y| {
      assert (x + y)[|x| + j] == y[j];
      SplitFromSuffix(x, y, j + 1, delims);
    }
  }

  /** One step of `SplitFrom`, with the pieces of the rest abstracted. */
  function SplitStep(c: char, rest: seq<string>, delims: set<char>): seq<string>
    requires |rest| >= 1
  {
    if c in delims then [""] + rest else [[c] + rest[0]] + rest[1..]
  }

  /** `SplitFrom` takes one character at a time. */
  lemma SplitFromStep(s: string, i: nat, delims: set<char>)
    requires i < |s|
    ensures SplitFrom(s, i, delims) == SplitStep(s[i], SplitFrom(s, i + 1, delims), delims)
  {
  }

  /** A step only touches the first piece, so it commutes with appending. */
  lemma SplitStepAppend(c: char, x: seq<string>, y: seq<string>, delims: set<char>)
    requires |x| >= 1
    ensures SplitStep(c, x + y, delims) == SplitStep(c, x, delims) + y
  {
    assert (x + y)[0] == x[0] && (x + y)[1..] == x[1..] + y;
  }

  lemma {:induction false} SplitFromAtDelimiter(a: string, d: char, b: string, i: nat, delims: set<char>)
    requires d in delims
    requires i <= |a|
    ensures SplitFrom(a + [d] + b, i, delims) == SplitFrom(a, i, delims) + Split(b, delims)
    decreases |a| - i
  {
    var s := a + [d] + b;
    if i == |a| {
      assert s[i] == d;
      SplitFromSuffix(a + [d], b, 0, delims);
      assert s == (a + [d]) + b;
    } else {
      var x, y := SplitFrom(a, i + 1, delims), Split(b, delims);
      SplitFromStep(s, i, delims);
      SplitFromStep(a, i, delims);
      assert s[i] == a[i];
      SplitFromAtDelimiter(a, d, b, i + 1, delims);
      SplitStepAppend(a[i], x, y, delims);
    }
  }

  /** Splitting at a delimiter character concatenates the pieces either side. */
  lemma SplitAtDelimiter(a: string, d: char, b: string, delims: set<char>)
    requires d in delims
    ensures Split(a + [d] + b, delims) == Split(a, delims) + Split(b, delims)
  {
    SplitFromAtDelimiter(a, d, b, 0, delims);
  }

  /** Splitting a joined list of delimiter-free words gives the words back. */
  lemma {:induction false} SplitJoin(words: seq<string>, sep: char, delims: set<char>)
    requires sep in delims
    requires |words| >= 1
    requires forall j :: 0 <= j < |words| ==> FreeOf(words[j], delims)
    ensures Split(Join(words, sep), delims) == words
  {
    assert Split(words[0], delims) == [words[0]];
    if |words| >= 2 {
      SplitAtDelimiter(words[0], sep, Join(words[1..], sep), delims);
      SplitJoin(words[1..], sep, delims);
      assert [words[0]] + words[1..] == words;
    }
  }

  /** The segments of a joined key list are its non-empty keys. */
  lemma SegmentsJoin(words: seq<string>, sep: char, delims: set<char>)
    requires sep in delims
    requires forall j :: 0 <= j < |words| ==> FreeOf(words[j], delims)
    ensures Segments(Join(words, sep), delims) == NonEmpty(words)
  {
    if |words| >= 1 {
      SplitJoin(words, sep, delims);
    }
  }

  lemma {:induction false} SegmentsFromEmpty(s: string, i: nat, delims: set<char>)
    requires i <= |s|
    ensures NonEmpty(SplitFrom(s, i, delims)) == [] <==> forall k :: i <= k < |s| ==> s[k] in delims
    decreases |s| - i
  {
    if i < |s| {
      SegmentsFromEmpty(s, i + 1, delims);
      var rest := SplitFrom(s, i + 1, delims);
      if s[i] in delims {
        NonEmptyConcat([""], rest);
      } else {
        assert SplitFrom(s, i, delims)[0] != "";
      }
    }
  }

  /** A string yields no segments exactly when it consists of delimiters. */
  lemma SegmentsEmpty(s: string, delims: set<char>)
    ensures Segments(s, delims) == [] <==> forall k :: 0 <= k < |s| ==> s[k] in delims
  {
    SegmentsFromEmpty(s, 0, delims);
  }
}

=== FILE: property_path.dfy ===
/**
 * `TinyXml.getRecursive(obj, path, defaultValue)`: a nested property read
 * driven by a key array, with a comma/bracket pass, a fallback pass that
 * also splits at dots, and a final mapping of `undefined` (and of `obj`
 * itself) to the default.
 */
module PropertyPath {
  import opened JsValue
  import opened PathSplit

  /** An element of the key array: `string | number` (integers here). */
  datatype Key = Name(name: string) | Index(index: int)

  /** How `Array.prototype.join` renders one key. */
  function KeyText(k: Key): string {
    match k
    case Name(n) => n
    case Index(i) => IntToString(i)
  }

  function KeyTexts(path: seq<Key>): (ws: seq<string>)
    ensures |ws| == |path|
    ensures forall j :: 0 <= j < |path| ==> ws[j] == KeyText(path[j])
  {
    seq(|path|, j requires 0 <= j < |path| => KeyText(path[j]))
  }

  /** `String(path)`: the keys joined with commas. */
  function PathText(path: seq<Key>): string {
    Join(KeyTexts(path), ',')
  }

  /** The delimiter class of the first pass, `/[,[\]]+?/`. */
  const FirstDelims: set<char> := {',', '[', ']'}

  /** The delimiter class of the fallback pass, `/[,[\].]+?/`. */
  const SecondDelims: set<char> := {',', '[', ']', '.'}

  /** One step of the `reduce`: null and undefined are passed on unchanged,
      an object gives its own property, and anything else `undefined`. */
  function Step(res: Value, key: string): (r: Value)
    ensures IsNullish(res) ==> r == res
    ensures res.Obj? && key in res.props ==> r == res.props[key]
    ensures !IsNullish(res) && !(res.Obj? && key in res.props) ==> r == Undefined
  {
    if IsNullish(res) then res else Get(res, key)
  }

  /** The `reduce` over the segments, starting from `obj`. Once it reaches
      null or undefined it stays there, and a primitive yields undefined. */
  function Walk(v: Value, keys: seq<string>): (r: Value)
    ensures IsNullish(v) ==> r == v
    ensures |keys| > 0 && !v.Obj? && !v.Null? ==> r == Undefined
    decreases |keys|
  {
    if |keys| == 0 then v else Walk(Step(v, keys[0]), keys[1..])
  }

  /** `travel(regexp)`: split the joined path, drop empty pieces, walk. With
      keys free of delimiters, either pass walks the non-empty keys in order. */
  function Travel(obj: Value, path: seq<Key>, delims: set<char>): (r: Value)
    ensures ',' in delims && delims <= SecondDelims && PlainKeys(path) ==>
              r == Walk(obj, NonEmpty(KeyTexts(path)))
  {
    PlainSegments(path, delims);
    Walk(obj, Segments(PathText(path), delims))
  }

  /** The segments of a key list whose keys no delimiter can split. */
  lemma PlainSegments(path: seq<Key>, delims: set<char>)
    ensures ',' in delims && delims <= SecondDelims && PlainKeys(path) ==>
              Segments(PathText(path), delims) == NonEmpty(KeyTexts(path))
  {
    if ',' in delims && delims <= SecondDelims && PlainKeys(path) {
      var ws := KeyTexts(path);
      assert forall j :: 0 <= j < |ws| ==> FreeOf(ws[j], delims);
      SegmentsJoin(ws, ',', delims);
    }
  }

  /** The final `result === undefined || result === obj ? defaultValue : result`. */
  function Finish(result: Value, obj: Value, defaultValue: Value): (r: Value)
    ensures result == Undefined || result == obj ==> r == defaultValue
    ensures result != Undefined && result != obj ==> r == result
  {
    if result == Undefined || result == obj then defaultValue else result
  }

  function GetRecursive(obj: Value, path: seq<Key>, defaultValue: Value): (r: Value)
    ensures r == defaultValue || (r != Undefined && r != obj)
  {
    var first := Travel(obj, path, FirstDelims);
    Finish(if Truthy(first) then first else Travel(obj, path, SecondDelims), obj, defaultValue)
  }

  /** Keys that no delimiter of either pass can split. */
  predicate PlainKeys(path: seq<Key>) {
    forall j :: 0 <= j < |path| ==> FreeOf(KeyText(path[j]), SecondDelims)
  }

  /** Walking a concatenation walks the parts in turn. */
  lemma {:induction false} WalkAppend(v: Value, a: seq<string>, b: seq<string>)
    ensures Walk(v, a + b) == Walk(Walk(v, a), b)
    decreases |a|
  {
    if |a| == 0 {
      assert a + b == b;
    } else {
      assert (a + b)[0] == a[0];
      assert (a + b)[1..] == a[1..] + b;
      WalkAppend(Step(v, a[0]), a[1..], b);
    }
  }

  /** A null intermediate value is the result of the whole walk. */
  lemma NullIntermediateStopsWalk(v: Value, keys: seq<string>, i: nat)
    requires i <= |keys|
    requires Walk(v, keys[..i]) == Null
    ensures Walk(v, keys) == Null
  {
    assert keys == keys[..i] + keys[i..];
    WalkAppend(v, keys[..i], keys[i..]);
  }

  /** With keys free of delimiters both passes walk the non-empty keys, so
      the lookup is the structured walk over the key list. */
  lemma GetRecursivePlain(obj: Value, path: seq<Key>, defaultValue: Value)
    requires PlainKeys(path)
    ensures GetRecursive(obj, path, defaultValue)
              == Finish(Walk(obj, NonEmpty(KeyTexts(path))), obj, defaultValue)
  {
  }

  /** Walking three keys is three steps. */
  lemma WalkThree(v: Value, a: string, b: string, c: string)
    ensures Walk(v, [a, b, c]) == Step(Step(Step(v, a), b), c)
  {
    assert [a, b, c][1..] == [b, c];
    assert [b, c][1..] == [c];
    assert [c][1..] == [];
    assert Walk(v, [a, b, c]) == Walk(Step(v, a), [b, c]);
    assert Walk(Step(v, a), [b, c]) == Walk(Step(Step(v, a), b), [c]);
  }

  /** The lookup of two plain property names is two property reads. */
  lemma GetRecursiveTwoNames(obj: Value, a: string, b: string, defaultValue: Value)
    requires a != "" && b != ""
    requires FreeOf(a, SecondDelims) && FreeOf(b, SecondDelims)
    ensures GetRecursive(obj, [Name(a), Name(b)], defaultValue)
              == Finish(Step(Step(obj, a), b), obj, defaultValue)
  {
    var path := [Name(a), Name(b)];
    var ws := KeyTexts(path);
    assert ws == [a, b];
    assert NonEmpty(ws) == [a, b] by {
      NonEmptyKeepsAll(ws);
    }
    assert GetRecursive(obj, path, defaultValue) == Finish(Walk(obj, [a, b]), obj, defaultValue) by {
      GetRecursivePlain(obj, path, defaultValue);
    }
    assert Walk(obj, [a, b]) == Step(Step(obj, a), b) by {
      assert [a, b][1..] == [b];
      assert [b][1..] == [];
      assert Walk(obj, [a, b]) == Walk(Step(obj, a), [b]);
      assert Walk(Step(obj, a), [b]) == Walk(Step(Step(obj, a), b), []);
    }
  }

  /** The lookup of `[a, i, c]` reads `a`, then the property named by the
      decimal index `i`, then `c`. */
  lemma GetRecursiveIndexed(obj: Value, a: string, i: nat, c: string, defaultValue: Value)
    requires a != "" && c != ""
    requires FreeOf(a, SecondDelims) && FreeOf(c, SecondDelims)
    ensures GetRecursive(obj, [Name(a), Index(i), Name(c)], defaultValue)
              == Finish(Step(Step(Step(obj, a), NatToString(i)), c), obj, defaultValue)
  {
    var path, d := [Name(a), Index(i), Name(c)], NatToString(i);
    var ws := KeyTexts(path);
    assert ws == [a, d, c];
    assert PlainKeys(path) by {
      assert FreeOf(d, SecondDelims);
    }
    assert NonEmpty(ws) == [a, d, c] by {
      NonEmptyKeepsAll(ws);
    }
    assert GetRecursive(obj, path, defaultValue) == Finish(Walk(obj, [a, d, c]), obj, defaultValue) by {
      GetRecursivePlain(obj, path, defaultValue);
    }
    WalkThree(obj, a, d, c);
  }

  /** A key list made only of delimiters (for instance the empty list) walks
      nowhere, ends at `obj` itself, and so yields the default. */
  lemma GetRecursiveNoSegments(obj: Value, path: seq<Key>, defaultValue: Value)
    requires Segments(PathText(path), FirstDelims) == []
    ensures GetRecursive(obj, path, defaultValue) == defaultValue
  {
    var s := PathText(path);
    SegmentsEmpty(s, FirstDelims);
    SegmentsEmpty(s, SecondDelims);
  }

  /** A null met along delimiter-free keys is returned as null, not replaced
      by the default (unless `obj` itself is null). */
  lemma GetRecursiveNullIntermediate(obj: Value, path: seq<Key>, defaultValue: Value, i: nat)
    requires PlainKeys(path)
    requires obj != Null
    requires i <= |NonEmpty(KeyTexts(path))|
    requires Walk(obj, NonEmpty(KeyTexts(path))[..i]) == Null
    ensures GetRecursive(obj, path, defaultValue) == Null
  {
    GetRecursivePlain(obj, path, defaultValue);
    NullIntermediateStopsWalk(obj, NonEmpty(KeyTexts(path)), i);
  }

  /** A dotted key `a.b` is first read as one property; only when that is
      falsy is it read again as the nested path `a`, `b`. */
  lemma DottedKeyFallback(obj: Value, a: string, b: string, defaultValue: Value)
    requires a != "" && b != ""
    requires FreeOf(a, SecondDelims) && FreeOf(b, SecondDelims)
    ensures var whole := Walk(obj, [a + "." + b]);
            var nested := Walk(obj, [a, b]);
            GetRecursive(obj, [Name(a + "." + b)], defaultValue)
              == Finish(if Truthy(whole) then whole else nested, obj, defaultValue)
  {
    var path := [Name(a + "." + b)];
    var w := a + "." + b;
    assert KeyTexts(path) == [w];
    assert PathText(path) == w;
    assert FreeOf(w, FirstDelims);
    assert Split(w, FirstDelims) == [w];
    assert Segments(w, FirstDelims) == [w];
    assert w == a + ['.'] + b;
    SplitAtDelimiter(a, '.', b, SecondDelims);
    assert Split(a, SecondDelims) == [a] && Split(b, SecondDelims) == [b];
    assert Split(w, SecondDelims) == [a, b];
    assert [a, b][1..] == [b];
    assert NonEmpty([b]) == [b];
    assert Segments(w, SecondDelims) == [a, b];
  }
}

=== FILE: substitution.dfy ===
/**
 * The replacement template of `String.prototype.replace`, expanded as the
 * GetSubstitution operation of ECMA-262 does it: `$$`, `$&`, `` $` ``, `$'`,
 * `$n`/`$nn` and `$<` are the special forms; every other character is copied.
 * The namespace rewrite splices a caller-supplied prefix into such a
 * template, so what the prefix turns into depends on this expansion.
 */
module Substitution {
  import opened Wrappers
  import opened JsValue

  /** One match, as the expansion sees it. */
  datatype MatchInfo = MatchInfo(
    matched: string,                 // the text of the whole match
    str: string,                     // the string being searched
    position: nat,                   // where the match starts in `str`
    captures: seq<Option<string>>)   // the capture groups; None is `undefined`

  predicate ValidMatch(m: MatchInfo) {
    m.position <= |m.str|
  }

  /** A capture group's text: `undefined` contributes nothing. */
  function CaptureText(c: Option<string>): string {
    if c.Some? then c.value else ""
  }

  /** Expansion of `template[i..]`. */
  function Expand(template: string, i: nat, m: MatchInfo): (r: string)
    requires i <= |template| && ValidMatch(m)
    ensures i == |template| ==> r == ""
    decreases |template| - i
  {
    if i == |template| then ""
    else if template[i] != '$' || i + 1 == |template| then
      [template[i]] + Expand(template, i + 1, m)
    else
      var c := template[i + 1];
      if c == '$' then "$" + Expand(template, i + 2, m)
      else if c == '`' then m.str[..m.position] + Expand(template, i + 2, m)
      else if c == '&' then m.matched + Expand(template, i + 2, m)
      else if c == '\'' then
        var tail := if m.position + |m.matched| <= |m.str| then m.position + |m.matched| else |m.str|;
        m.str[tail..] + Expand(template, i + 2, m)
      else if IsDigit(c) then
        // Two digits are taken when they name an existing group, else one.
        var two := i + 2 < |template| && IsDigit(template[i + 2]);
        var wide := if two then 10 * DigitValue(c) + DigitValue(template[i + 2]) else 0;
        var count := if two && wide <= |m.captures| then 2 else 1;
        var index := if count == 2 then wide else DigitValue(c);
        var next := i + 1 + count;
        (if 1 <= index <= |m.captures| then CaptureText(m.captures[index - 1]) else template[i..next])
          + Expand(template, next, m)
      else if c == '<' then
        // No named groups: `$<` stands for itself.
        "$<" + Expand(template, i + 2, m)
      else
        "$" + Expand(template, i + 1, m)
  }

  /** GetSubstitution: the replacement text for one match. */
  function GetSubstitution(template: string, m: MatchInfo): string
    requires ValidMatch(m)
  {
    Expand(template, 0, m)
  }

  /** A template without `$` is the replacement itself, whatever the match. */
  lemma GetSubstitutionPlain(template: string, m: MatchInfo)
    requires ValidMatch(m)
    ensures '$' !in template ==> GetSubstitution(template, m) == template
  {
    if '$' !in template {
      ExpandPlain(template, 0, m);
      assert template[0..] == template;
    }
  }

  /** A template stretch without `$` is copied as it stands. */
  lemma {:induction false} ExpandPlain(template: string, i: nat, m: MatchInfo)
    requires i <= |template| && ValidMatch(m)
    requires forall k :: i <= k < |template| ==> template[k] != '$'
    ensures Expand(template, i, m) == template[i..]
    decreases |template| - i
  {
    if i < |template| {
      ExpandPlain(template, i + 1, m);
      assert template[i..] == [template[i]] + template[i + 1..];
    }
  }

  /** A template that ends in `$2` and has no other `$` after `i`. */
  lemma {:induction false} ExpandToSecondGroup(template: string, i: nat, m: MatchInfo)
    requires ValidMatch(m) && |m.captures| == 2
    requires |template| >= 2 && i <= |template| - 2
    requires template[|template| - 2] == '$' && template[|template| - 1] == '2'
    requires forall k :: i <= k < |template| - 2 ==> template[k] != '$'
    ensures Expand(template, i, m) == template[i..|template| - 2] + CaptureText(m.captures[1])
    decreases |template| - i
  {
    if i < |template| - 2 {
      ExpandToSecondGroup(template, i + 1, m);
      assert template[i..|template| - 2] == [template[i]] + template[i + 1..|template| - 2];
    }
  }

  /** `$1` at the front of a template is the first group, whatever digit
      follows: with fewer than ten groups, `$1d` never names a group. */
  lemma ExpandFirstGroup(template: string, m: MatchInfo)
    requires ValidMatch(m) && 1 <= |m.captures| < 10
    requires |template| >= 2 && template[0] == '$' && template[1] == '1'
    ensures Expand(template, 0, m) == CaptureText(m.captures[0]) + Expand(template, 2, m)
  {
    if 2 < |template| && IsDigit(template[2]) {
      assert 10 * DigitValue(template[1]) + DigitValue(template[2]) >= 10;
    }
  }

  /** The template `$1<prefix>:$2`: for a prefix without `$` it expands to
      the first group, the prefix and a colon, then the second group. */
  lemma PrefixTemplate(prefix: string, m: MatchInfo)
    requires ValidMatch(m) && |m.captures| == 2
    requires '$' !in prefix
    ensures GetSubstitution("$1" + prefix + ":$2", m)
              == CaptureText(m.captures[0]) + prefix + ":" + CaptureText(m.captures[1])
  {
    var t := "$1" + prefix + ":$2";
    assert t[0] == '$' && t[1] == '1';
    ExpandFirstGroup(t, m);
    assert Expand(t, 2, m) == prefix + ":" + CaptureText(m.captures[1]) by {
      forall k | 2 <= k < |t| - 2 ensures t[k] != '$' {
        if k - 2 < |prefix| {
          assert t[k] == prefix[k - 2];
        } else {
          assert t[k] == ':';
        }
      }
      ExpandToSecondGroup(t, 2, m);
      assert t[2..|t| - 2] == prefix + ":";
    }
  }
}

=== FILE: tiny_xml.dfy ===
/**
 * The `TinyXml` facade: `findElement` and `findElements` build the XPath
 * expression they hand to `xpath.select`, prefixing element names with the
 * namespace when one is given. Parsing and evaluation are outside this model.
 * A call is therefore modelled by the query it issues.
 */
module TinyXml {
  import opened Wrappers
  import opened XPathNamespace

  /** The arguments of `xpath.select`, apart from the document: the
      expression and whether a single node (`true`) or all nodes are wanted. */
  datatype Query = Query(expression: string, single: bool)

  /** `namespace ? composeExpressionWithNamespace(expression, namespace) :
      expression`. An absent namespace and the empty string are both falsy
      and leave the expression alone. Otherwise a namespace without `$` is
      inserted, followed by a colon, after every matched slash run. */
  function EnhancedExpression(expression: string, namespace: Option<string>): (r: string)
    ensures namespace.None? || namespace.value == "" ==> r == expression
    ensures namespace.Some? && namespace.value != "" && '$' !in namespace.value ==>
              r == InsertAt(expression, 0, RunEnds(MatchesFrom(expression, 0)), namespace.value + ":")
  {
    if namespace.Some? && namespace.value != "" then ComposeWithNamespace(expression, namespace.value)
    else expression
  }

  /** `findElement(expression, namespace)`: asks for the first match, with
      the expression rewritten as `EnhancedExpressionChanges` describes. */
  function FindElementQuery(expression: string, namespace: Option<string>): (q: Query)
    ensures q.single
    ensures namespace.None? || namespace.value == "" ==> q.expression == expression
    ensures namespace.Some? && namespace.value != "" && '$' !in namespace.value ==>
              && q.expression == InsertAt(expression, 0, RunEnds(MatchesFrom(expression, 0)), namespace.value + ":")
              && |q.expression| == |expression| + |MatchesFrom(expression, 0)| * (|namespace.value| + 1)
              && (q.expression == expression <==> forall k :: 0 <= k < |expression| ==> expression[k] != '/')
  {
    EnhancedExpressionChanges(expression, namespace);
    Query(EnhancedExpression(expression, namespace), true)
  }

  /** `findElements(expression, namespace)`: asks for every match, with the
      same expression as `findElement`. */
  function FindElementsQuery(expression: string, namespace: Option<string>): (q: Query)
    ensures !q.single
    ensures namespace.None? || namespace.value == "" ==> q.expression == expression
    ensures namespace.Some? && namespace.value != "" && '$' !in namespace.value ==>
              && q.expression == InsertAt(expression, 0, RunEnds(MatchesFrom(expression, 0)), namespace.value + ":")
              && |q.expression| == |expression| + |MatchesFrom(expression, 0)| * (|namespace.value| + 1)
              && (q.expression == expression <==> forall k :: 0 <= k < |expression| ==> expression[k] != '/')
  {
    EnhancedExpressionChanges(expression, namespace);
    Query(EnhancedExpression(expression, namespace), false)
  }

  /** With a non-empty namespace free of `$`, the expression is left as it
      is exactly when it has no slash; otherwise it grows by the namespace
      and a colon for every match. */
  lemma EnhancedExpressionChanges(expression: string, namespace: Option<string>)
    ensures namespace.Some? && namespace.value != "" && '$' !in namespace.value ==>
              var r := EnhancedExpression(expression, namespace);
              && |r| == |expression| + |MatchesFrom(expression, 0)| * (|namespace.value| + 1)
              && (r == expression <==> forall k :: 0 <= k < |expression| ==> expression[k] != '/')
  {
    if namespace.Some? && namespace.value != "" && '$' !in namespace.value {
      var ms, t := MatchesFrom(expression, 0), namespace.value + ":";
      var r := EnhancedExpression(expression, namespace);
      assert r == InsertAt(expression, 0, RunEnds(ms), t);
      assert |r| == |expression| + |ms| * |t|;
      MatchesIffSlash(expression);
      if ms == [] {
        assert r == expression[0..] == expression;
      } else {
        AtLeastOnce(|ms|, |t|);
      }
    }
  }

  /** `a` copies of `b` are at least one copy; kept apart so the product is
      reasoned about outside the context of the lemma above. */
  lemma AtLeastOnce(a: nat, b: nat)
    requires a >= 1
    ensures a * b >= b
  {
  }
}

=== FILE: wrappers.dfy ===
/** Optional values: an absent JavaScript argument or property. */
module Wrappers {

  datatype Option<+T> = None | Some(value: T)
}

=== FILE: xpath_namespace.dfy ===
/**
 * `composeExpressionWithNamespace`: `expression.replace(/(\/+)(.+\[.+])?/g,
 * "$1" + namespace + ":$2")`.
 *
 * The pattern is tried at the first unconsumed slash. `(\/+)` takes the whole
 * run of slashes, and it never has to give any back, because the optional
 * group after it can always match empty. The group `(.+\[.+])` is tried on
 * the rest of the line, with each `.+` taking as much as it can and then
 * giving characters back one at a time. It succeeds iff the line has a
 * `]` with a `[` at least two characters before it and at least one
 * character after the run. The first success it reaches runs to the LAST
 * `]` of the line. The global search resumes after the match, and the
 * matches are then spliced into the result in order.
 */
module XPathNamespace {
  import opened Wrappers
  import opened Substitution

  /** The characters `.` does not match (the pattern has no `s` flag). */
  predicate IsLineTerminator(c: char) {
    c == '\n' || c == '\r' || c == '\U{2028}' || c == '\U{2029}'
  }

  /** The end of the line that contains position `i`: the first terminator
      at or after `i`, or the end of the text. */
  function LineEnd(e: string, i: nat): (r: nat)
    requires i <= |e|
    ensures i <= r <= |e|
    ensures r < |e| ==> IsLineTerminator(e[r])
    ensures forall k :: i <= k < r ==> !IsLineTerminator(e[k])
    decreases |e| - i
  {
    if i == |e| || IsLineTerminator(e[i]) then i else LineEnd(e, i + 1)
  }

  /** The end of the run of slashes that starts at `i`. */
  function RunEnd(e: string, i: nat): (r: nat)
    requires i <= |e|
    ensures i <= r <= |e|
    ensures r < |e| ==> e[r] != '/'
    ensures forall k :: i <= k < r ==> e[k] == '/'
    decreases |e| - i
  {
    if i == |e| || e[i] != '/' then i else RunEnd(e, i + 1)
  }

  /** The first slash at or after `i`. */
  function NextSlash(e: string, i: nat): (r: Option<nat>)
    requires i <= |e|
    ensures r.None? ==> forall k :: i <= k < |e| ==> e[k] != '/'
    ensures r.Some? ==> i <= r.value < |e| && e[r.value] == '/'
    ensures r.Some? ==> forall k :: i <= k < r.value ==> e[k] != '/'
    decreases |e| - i
  {
    if i == |e| then None
    else if e[i] == '/' then Some(i)
    else NextSlash(e, i + 1)
  }

  /** The last occurrence of `ch` in `e[lo..hi]`. */
  function LastIndexOf(e: string, ch: char, lo: nat, hi: nat): (r: Option<nat>)
    requires lo <= hi <= |e|
    ensures r.None? ==> forall k :: lo <= k < hi ==> e[k] != ch
    ensures r.Some? ==> lo <= r.value < hi && e[r.value] == ch
    ensures r.Some? ==> forall k :: r.value < k < hi ==> e[k] != ch
    decreases hi - lo
  {
    if lo == hi then None
    else if e[hi - 1] == ch then Some(hi - 1)
    else LastIndexOf(e, ch, lo, hi - 1)
  }

  /** Where the group `(.+\[.+])` ends when it is tried at `q`, or `q`
      itself when it does not match there: the last `]` of the line closes
      it, provided a `[` lies between the first character and the
      character before that `]`. */
  function GroupEnd(e: string, q: nat): (end: nat)
    requires q <= |e|
    ensures q <= end <= |e|
    ensures end > q ==> q + 3 <= end && e[end - 1] == ']'
    ensures end > q ==> exists p :: q + 1 <= p <= end - 3 && e[p] == '['
    ensures end > q ==> forall k :: q <= k < end ==> !IsLineTerminator(e[k])
    ensures end > q ==> forall k :: end <= k < LineEnd(e, q) ==> e[k] != ']'
  {
    var line := LineEnd(e, q);
    var close := LastIndexOf(e, ']', q, line);
    if close.Some? && q + 2 <= close.value && LastIndexOf(e, '[', q + 1, close.value - 1).Some?
    then close.value + 1
    else q
  }

  /** The group can match at `q` with its `[` at `p` and its `]` at `c`:
      each `.+` takes at least one character, and none of them ends a line. */
  predicate GroupSplit(e: string, q: nat, p: int, c: int)
    requires q <= |e|
  {
    q + 1 <= p && p + 2 <= c < LineEnd(e, q) && e[p] == '[' && e[c] == ']'
  }

  /** `(p, c)` is the first split the backtracking search reaches: the
      first `.+` gives back as little as it can, and then so does the
      second. */
  ghost predicate FirstSplit(e: string, q: nat, p: int, c: int)
    requires q <= |e|
  {
    && GroupSplit(e, q, p, c)
    && forall p', c' :: GroupSplit(e, q, p', c') ==> p' < p || (p' == p && c' <= c)
  }

  /** `GroupEnd` is the end of the first split the backtracking search
      reaches, and it is `q` exactly when there is no split at all. */
  lemma GroupEndIsFirstSplit(e: string, q: nat)
    requires q <= |e|
    ensures GroupEnd(e, q) == q <==> forall p, c :: !GroupSplit(e, q, p, c)
    ensures GroupEnd(e, q) > q ==> exists p, c :: FirstSplit(e, q, p, c) && GroupEnd(e, q) == c + 1
  {
    var line := LineEnd(e, q);
    var close := LastIndexOf(e, ']', q, line);
    if close.Some? && q + 2 <= close.value && LastIndexOf(e, '[', q + 1, close.value - 1).Some? {
      var c := close.value;
      var p := LastIndexOf(e, '[', q + 1, c - 1).value;
      assert GroupSplit(e, q, p, c);
      assert FirstSplit(e, q, p, c);
    }
  }

  /** A split that comes first fixes the group's end. */
  lemma FirstSplitEnds(e: string, q: nat, p: int, c: int)
    requires q <= |e| && FirstSplit(e, q, p, c)
    ensures GroupEnd(e, q) == c + 1
  {
    GroupEndIsFirstSplit(e, q);
    var p0, c0 :| FirstSplit(e, q, p0, c0) && GroupEnd(e, q) == c0 + 1;
  }

  /** The backtracking search itself: the first `.+` gives back one
      character at a time (the `[` moves left), and for each position of
      the `[` the second `.+` does the same (the `]` moves left). */
  method MatchGroup(e: string, q: nat) returns (end: nat)
    requires q <= |e|
    ensures end == GroupEnd(e, q)
  {
    var line := LineEnd(e, q);
    var p := line;
    while p > q
      invariant q <= p <= line
      invariant forall p', c' :: GroupSplit(e, q, p', c') ==> p' <= p
    {
      if p < |e| && e[p] == '[' {
        var c := line;
        while c >= p + 2
          invariant c <= line
          invariant forall c' :: GroupSplit(e, q, p, c') ==> c' <= c
        {
          if c < |e| && e[c] == ']' {
            assert FirstSplit(e, q, p, c);
            FirstSplitEnds(e, q, p, c);
            return c + 1;
          }
          c := c - 1;
        }
      }
      p := p - 1;
    }
    GroupEndIsFirstSplit(e, q);
    return q;
  }

  /** One match of the pattern: group 1 is the slash run `e[start..runEnd]`,
      and group 2 is `e[runEnd..end]`, or undefined when that is empty. */
  datatype Match = Match(start: nat, runEnd: nat, end: nat)

  /** Each match lies after `from` and after the one before it, and holds
      at least one slash. */
  predicate Ordered(e: string, from: nat, ms: seq<Match>)
    decreases |ms|
  {
    ms == [] || (from <= ms[0].start < ms[0].runEnd <= ms[0].end <= |e| && Ordered(e, ms[0].end, ms[1..]))
  }

  /** The positions just after each match's slash run. */
  function RunEnds(ms: seq<Match>): (pts: seq<nat>)
    ensures |pts| == |ms|
    ensures forall j :: 0 <= j < |ms| ==> pts[j] == ms[j].runEnd
    decreases |ms|
  {
    if ms == [] then [] else [ms[0].runEnd] + RunEnds(ms[1..])
  }

  /** Positions that do not go down, all within `[from, n]`. */
  predicate Increasing(from: nat, pts: seq<nat>, n: nat)
    decreases |pts|
  {
    pts == [] || (from <= pts[0] <= n && Increasing(pts[0], pts[1..], n))
  }

  /** The global search from `i`: the pattern matches at the first slash,
      and the search resumes where the match ends. */
  function MatchesFrom(e: string, i: nat): (ms: seq<Match>)
    requires i <= |e|
    ensures Ordered(e, i, ms)
    ensures Increasing(i, RunEnds(ms), |e|)
    decreases |e| - i
  {
    match NextSlash(e, i)
    case None => []
    case Some(s) =>
      var r := RunEnd(e, s);
      var g := GroupEnd(e, r);
      [Match(s, r, g)] + MatchesFrom(e, g)
  }

  /** What the replacement sees of one match. */
  function Info(e: string, m: Match): (info: MatchInfo)
    requires m.start <= m.runEnd <= m.end <= |e|
    ensures ValidMatch(info) && |info.captures| == 2
  {
    MatchInfo(e[m.start..m.end], e, m.start,
      [Some(e[m.start..m.runEnd]), if m.runEnd < m.end then Some(e[m.runEnd..m.end]) else None])
  }

  /** The replacement template `$1${namespace}:$2`. */
  function Template(namespace: string): string {
    "$1" + namespace + ":$2"
  }

  /** Where the text after the last match begins. */
  function AfterLast(e: string, from: nat, ms: seq<Match>): (p: nat)
    requires from <= |e| && Ordered(e, from, ms)
    ensures from <= p <= |e|
    decreases |ms|
  {
    if ms == [] then from else AfterLast(e, ms[0].end, ms[1..])
  }

  /** The last step of `replace`: the text between matches is copied, and
      each match is replaced by its expansion of the template. */
  function Assemble(e: string, from: nat, ms: seq<Match>, template: string): string
    requires from <= |e| && Ordered(e, from, ms)
    decreases |ms|
  {
    if ms == [] then e[from..]
    else
      var m := ms[0];
      e[from..m.start] + GetSubstitution(template, Info(e, m)) + Assemble(e, m.end, ms[1..], template)
  }

  /** Whatever the template, the assembled text starts with the text before
      the first match and ends with the text after the last one. */
  lemma {:induction false} AssembleKeepsOutside(e: string, from: nat, ms: seq<Match>, template: string)
    requires from <= |e| && Ordered(e, from, ms)
    ensures ms != [] ==> e[from..ms[0].start] <= Assemble(e, from, ms, template)
    ensures var r, tail := Assemble(e, from, ms, template), e[AfterLast(e, from, ms)..];
            |tail| <= |r| && r[|r| - |tail|..] == tail
    decreases |ms|
  {
    if ms != [] {
      var m := ms[0];
      var x := e[from..m.start] + GetSubstitution(template, Info(e, m));
      var y := Assemble(e, m.end, ms[1..], template);
      var tail := e[AfterLast(e, from, ms)..];
      AssembleKeepsOutside(e, m.end, ms[1..], template);
      assert Assemble(e, from, ms, template) == x + y;
      assert (x + y)[|x + y| - |tail|..] == y[|y| - |tail|..];
    }
  }

  /** `e[from..]` with `t` inserted at each position of `pts`. */
  function InsertAt(e: string, from: nat, pts: seq<nat>, t: string): (r: string)
    requires from <= |e| && Increasing(from, pts, |e|)
    ensures |r| == |e| - from + |pts| * |t|
    decreases |pts|
  {
    if pts == [] then e[from..]
    else e[from..pts[0]] + t + InsertAt(e, pts[0], pts[1..], t)
  }

  /** `composeExpressionWithNamespace(expression, namespace)`. */
  function ComposeWithNamespace(expression: string, namespace: string): (r: string)
    ensures '$' !in namespace ==>
              r == InsertAt(expression, 0, RunEnds(MatchesFrom(expression, 0)), namespace + ":")
    ensures (forall k :: 0 <= k < |expression| ==> expression[k] != '/') ==> r == expression
  {
    AssembleInserts(expression, 0, MatchesFrom(expression, 0), namespace);
    Assemble(expression, 0, MatchesFrom(expression, 0), Template(namespace))
  }

  /** Inserting at positions that all lie past `mid` copies `e[from..mid]` first. */
  lemma InsertAtSkip(e: string, from: nat, mid: nat, pts: seq<nat>, t: string)
    requires from <= mid <= |e| && Increasing(mid, pts, |e|)
    ensures Increasing(from, pts, |e|)
    ensures InsertAt(e, from, pts, t) == e[from..mid] + InsertAt(e, mid, pts, t)
  {
    if pts != [] {
      assert e[from..pts[0]] == e[from..mid] + e[mid..pts[0]];
    } else {
      assert e[from..] == e[from..mid] + e[mid..];
    }
  }

  /** For a namespace without `$`, one match becomes its slash run, then
      `namespace:`, then its group. */
  lemma ReplacementInserts(e: string, m: Match, namespace: string)
    requires m.start <= m.runEnd <= m.end <= |e|
    requires '$' !in namespace
    ensures GetSubstitution(Template(namespace), Info(e, m))
              == e[m.start..m.runEnd] + (namespace + ":") + e[m.runEnd..m.end]
  {
    PrefixTemplate(namespace, Info(e, m));
  }

  /** For a namespace without `$`, the replacement inserts `namespace:`
      after every matched slash run and changes nothing else. */
  lemma {:induction false} AssembleInserts(e: string, from: nat, ms: seq<Match>, namespace: string)
    requires from <= |e| && Ordered(e, from, ms) && Increasing(from, RunEnds(ms), |e|)
    ensures '$' !in namespace ==>
              Assemble(e, from, ms, Template(namespace)) == InsertAt(e, from, RunEnds(ms), namespace + ":")
    decreases |ms|
  {
    if ms != [] && '$' !in namespace {
      var m, t, rest := ms[0], namespace + ":", ms[1..];
      var tail := Assemble(e, m.end, rest, Template(namespace));
      assert tail == InsertAt(e, m.end, RunEnds(rest), t) by {
        assert RunEnds(ms)[1..] == RunEnds(rest);
        AssembleInserts(e, m.end, rest, namespace);
      }
      assert Assemble(e, from, ms, Template(namespace))
          == e[from..m.start] + (e[m.start..m.runEnd] + t + e[m.runEnd..m.end]) + tail by {
        ReplacementInserts(e, m, namespace);
      }
      assert InsertAt(e, from, RunEnds(ms), t) == e[from..m.runEnd] + t + (e[m.runEnd..m.end] + tail) by {
        assert RunEnds(ms)[1..] == RunEnds(rest);
        InsertAtSkip(e, m.runEnd, m.end, RunEnds(rest), t);
      }
      assert e[from..m.runEnd] == e[from..m.start] + e[m.start..m.runEnd];
      Regroup(e[from..m.start], e[m.start..m.runEnd], t, e[m.runEnd..m.end], tail);
    }
  }

  /** Moving the brackets of a five-part concatenation; kept apart so the
      step is checked without the context of the induction around it. */
  lemma Regroup(a: string, b: string, t: string, c: string, d: string)
    ensures a + (b + t + c) + d == (a + b) + t + (c + d)
  {
  }

  /** `m` is the pattern's match at `m.start`: a whole run of slashes,
      then the group as far as it matches there. */
  predicate IsMatchAt(e: string, m: Match) {
    && m.start < m.runEnd <= |e|
    && (forall k :: m.start <= k < m.runEnd ==> e[k] == '/')
    && (m.runEnd == |e| || e[m.runEnd] != '/')
    && m.end == GroupEnd(e, m.runEnd)
  }

  /** `ms` is what a global search from `from` finds: each match starts at
      the first slash not yet consumed, and after the last one no slash is
      left. */
  predicate LeftmostScan(e: string, from: nat, ms: seq<Match>)
    requires from <= |e|
    decreases |ms|
  {
    if ms == [] then forall k :: from <= k < |e| ==> e[k] != '/'
    else
      && from <= ms[0].start
      && IsMatchAt(e, ms[0])
      && (forall k :: from <= k < ms[0].start ==> e[k] != '/')
      && LeftmostScan(e, ms[0].end, ms[1..])
  }

  /** The matches found are the global search's matches... */
  lemma {:induction false} MatchesFromIsLeftmostScan(e: string, from: nat)
    requires from <= |e|
    ensures LeftmostScan(e, from, MatchesFrom(e, from))
    decreases |e| - from
  {
    var ms := MatchesFrom(e, from);
    if ms != [] {
      MatchesFromIsLeftmostScan(e, ms[0].end);
      assert ms[1..] == MatchesFrom(e, ms[0].end);
    }
  }

  /** ... and the only ones. */
  lemma {:induction false} LeftmostScanUnique(e: string, from: nat, ms: seq<Match>)
    requires from <= |e| && LeftmostScan(e, from, ms)
    ensures ms == MatchesFrom(e, from)
    decreases |ms|
  {
    if ms != [] {
      var m := ms[0];
      NextSlashAt(e, from, m.start);
      assert RunEnd(e, m.start) == m.runEnd by {
        RunEndIsMaximal(e, m.start, m.runEnd);
      }
      LeftmostScanUnique(e, m.end, ms[1..]);
    }
  }

  /** A slash with none before it from `i` on is the next slash. */
  lemma {:induction false} NextSlashAt(e: string, i: nat, s: nat)
    requires i <= s < |e| && e[s] == '/'
    requires forall k :: i <= k < s ==> e[k] != '/'
    ensures NextSlash(e, i) == Some(s)
    decreases s - i
  {
    if i < s {
      NextSlashAt(e, i + 1, s);
    }
  }

  /** A run of slashes that cannot be extended ends where `RunEnd` says. */
  lemma {:induction false} RunEndIsMaximal(e: string, i: nat, r: nat)
    requires i <= r <= |e|
    requires forall k :: i <= k < r ==> e[k] == '/'
    requires r == |e| || e[r] != '/'
    ensures RunEnd(e, i) == r
    decreases r - i
  {
    if i < r {
      RunEndIsMaximal(e, i + 1, r);
    }
  }

  /** A position where a new search may begin: not strictly inside a run
      of slashes. */
  predicate AtRunBoundary(e: string, i: nat)
    requires i <= |e|
  {
    i == 0 || i == |e| || e[i - 1] != '/' || e[i] != '/'
  }

  /** Every match begins a run: no slash is left just before it. */
  lemma {:induction false} MatchesStartRuns(e: string, from: nat)
    requires from <= |e| && AtRunBoundary(e, from)
    ensures forall m :: m in MatchesFrom(e, from) && 0 < m.start <= |e| ==> e[m.start - 1] != '/'
    decreases |e| - from
  {
    var ms := MatchesFrom(e, from);
    if ms != [] {
      var m := ms[0];
      GroupEndBoundary(e, m.runEnd);
      MatchesStartRuns(e, m.end);
      assert ms == [m] + MatchesFrom(e, m.end);
    }
  }

  /** The search resumes at a run boundary: after the run if the group did
      not match, after a `]` if it did. */
  lemma GroupEndBoundary(e: string, q: nat)
    requires 0 < q <= |e| && (q == |e| || e[q] != '/')
    ensures AtRunBoundary(e, GroupEnd(e, q))
  {
  }

  /** `k` ends a run of slashes. */
  predicate IsRunEndAt(e: string, k: int) {
    0 < k <= |e| && e[k - 1] == '/' && (k == |e| || e[k] != '/')
  }

  /** Without a `[`, the group never matches, so every run of slashes
      gets the namespace: the insertion points are exactly the run ends. */
  lemma {:induction false} NoBracketEveryRun(e: string, from: nat)
    requires from <= |e| && (from == |e| || e[from] != '/' || from == 0 || e[from - 1] != '/')
    requires forall k :: 0 <= k < |e| ==> e[k] != '['
    ensures forall k :: from < k <= |e| ==> (k in RunEnds(MatchesFrom(e, from)) <==> IsRunEndAt(e, k))
    ensures forall k :: k in RunEnds(MatchesFrom(e, from)) ==> from < k <= |e|
    decreases |e| - from
  {
    var ms := MatchesFrom(e, from);
    if ms == [] {
      forall k | from < k <= |e| ensures !IsRunEndAt(e, k) {
        assert e[k - 1] != '/';
      }
    } else {
      var s := NextSlash(e, from).value;
      var r := RunEnd(e, s);
      assert GroupEnd(e, r) == r;
      var rest := MatchesFrom(e, r);
      assert ms == [Match(s, r, r)] + rest;
      assert RunEnds(ms) == [r] + RunEnds(rest);
      NoBracketEveryRun(e, r);
      forall k | from < k <= |e| ensures k in RunEnds(ms) <==> IsRunEndAt(e, k) {
        if k < r {
          assert k !in RunEnds(rest);
          if k - 1 < s {
            assert e[k - 1] != '/';
          } else {
            assert e[k] == '/';
          }
        }
      }
    }
  }

  /** The search over `/a/b[@id='1']` finds one match: the first slash,
      with a group that runs to the end. */
  lemma MatchesOfPredicateExample(e: string)
    requires e == "/a/b[@id='1']"
    ensures MatchesFrom(e, 0) == [Match(0, 1, 13)]
  {
    assert NextSlash(e, 0) == Some(0);
    assert RunEnd(e, 0) == 1;
    assert GroupEnd(e, 1) == 13 by {
      assert LineEnd(e, 1) == 13;
      assert LastIndexOf(e, ']', 1, 13) == Some(12);
      assert LastIndexOf(e, '[', 2, 11) == Some(4);
    }
    assert MatchesFrom(e, 13) == [];
  }

  /** The pattern matches somewhere exactly when the expression has a slash. */
  lemma MatchesIffSlash(e: string)
    ensures MatchesFrom(e, 0) == [] <==> forall k :: 0 <= k < |e| ==> e[k] != '/'
  {
  }

  /** Inserting at one position. */
  lemma InsertOnce(e: string, a: nat, t: string)
    requires a <= |e|
    ensures Increasing(0, [a], |e|)
    ensures InsertAt(e, 0, [a], t) == e[..a] + t + e[a..]
  {
    assert [a][1..] == [];
  }

  /** Inserting at two positions. */
  lemma InsertTwice(e: string, a: nat, b: nat, t: string)
    requires a <= b <= |e|
    ensures Increasing(0, [a, b], |e|)
    ensures InsertAt(e, 0, [a, b], t) == e[..a] + t + e[a..b] + t + e[b..]
  {
    assert [a, b][1..] == [b];
    assert InsertAt(e, a, [b], t) == e[a..b] + t + e[b..] by {
      assert [b][1..] == [];
    }
  }

  /** A predicate on the last step swallows that step: only the first
      step gets the namespace. */
  lemma ExamplePredicateSwallowsStep(e: string, ns: string)
    requires e == "/a/b[@id='1']" && ns == "ns"
    ensures ComposeWithNamespace(e, ns) == "/" + "ns:" + "a/b[@id='1']"
  {
    MatchesOfPredicateExample(e);
    assert RunEnds([Match(0, 1, 13)]) == [1];
    InsertOnce(e, 1, ns + ":");
    assert e[..1] == "/" && ns + ":" == "ns:" && e[1..] == "a/b[@id='1']";
  }

  /** The search over `/a/b` finds both slashes, each with an empty group. */
  lemma MatchesOfPlainExample(e: string)
    requires e == "/a/b"
    ensures MatchesFrom(e, 0) == [Match(0, 1, 1), Match(2, 3, 3)]
  {
    assert NextSlash(e, 0) == Some(0);
    assert RunEnd(e, 0) == 1;
    assert GroupEnd(e, 1) == 1 by {
      assert LineEnd(e, 1) == 4;
      assert LastIndexOf(e, ']', 1, 4) == None;
    }
    assert MatchesFrom(e, 1) == [Match(2, 3, 3)] by {
      assert NextSlash(e, 1) == Some(2);
      assert RunEnd(e, 2) == 3;
      assert GroupEnd(e, 3) == 3 by {
        assert LineEnd(e, 3) == 4;
        assert LastIndexOf(e, ']', 3, 4) == None;
      }
      assert MatchesFrom(e, 3) == [];
    }
  }

  /** Without predicates every step gets the namespace. */
  lemma ExampleEveryStep(e: string, ns: string)
    requires e == "/a/b" && ns == "ns"
    ensures ComposeWithNamespace(e, ns) == "/" + "ns:" + "a/" + "ns:" + "b"
  {
    MatchesOfPlainExample(e);
    assert RunEnds([Match(0, 1, 1), Match(2, 3, 3)]) == [1, 3];
    InsertTwice(e, 1, 3, ns + ":");
    assert e[..1] == "/" && ns + ":" == "ns:" && e[1..3] == "a/" && e[3..] == "b";
  }

  /** The search over `/a[1]/b` finds both slashes: the group of the first
      ends at the `]`, just before the second. */
  lemma MatchesOfStepsExample(e: string)
    requires e == "/a[1]/b"
    ensures MatchesFrom(e, 0) == [Match(0, 1, 5), Match(5, 6, 6)]
  {
    assert NextSlash(e, 0) == Some(0);
    assert RunEnd(e, 0) == 1;
    assert GroupEnd(e, 1) == 5 by {
      assert LineEnd(e, 1) == 7;
      assert LastIndexOf(e, ']', 1, 7) == Some(4);
      assert LastIndexOf(e, '[', 2, 3) == Some(2);
    }
    assert MatchesFrom(e, 5) == [Match(5, 6, 6)] by {
      assert NextSlash(e, 5) == Some(5);
      assert RunEnd(e, 5) == 6;
      assert GroupEnd(e, 6) == 6 by {
        assert LineEnd(e, 6) == 7;
        assert LastIndexOf(e, ']', 6, 7) == None;
      }
      assert MatchesFrom(e, 6) == [];
    }
  }

  /** A predicate followed by another step: the group ends at the last
      `]`, and the search finds the next slash after it. */
  lemma ExamplePredicateThenStep(e: string, ns: string)
    requires e == "/a[1]/b" && ns == "ns"
    ensures ComposeWithNamespace(e, ns) == "/" + "ns:" + "a[1]/" + "ns:" + "b"
  {
    MatchesOfStepsExample(e);
    assert RunEnds([Match(0, 1, 5), Match(5, 6, 6)]) == [1, 6];
    InsertTwice(e, 1, 6, ns + ":");
    assert e[..1] == "/" && ns + ":" == "ns:" && e[1..6] == "a[1]/" && e[6..] == "b";
  }

  /** The search over `//item` finds the run of two slashes. */
  lemma MatchesOfDescendantExample(e: string)
    requires e == "//item"
    ensures MatchesFrom(e, 0) == [Match(0, 2, 2)]
  {
    assert NextSlash(e, 0) == Some(0);
    assert RunEnd(e, 0) == 2 by {
      RunEndIsMaximal(e, 0, 2);
    }
    assert GroupEnd(e, 2) == 2 by {
      assert LineEnd(e, 2) == 6;
      assert LastIndexOf(e, ']', 2, 6) == None;
    }
    assert MatchesFrom(e, 2) == [];
  }

  /** A run of slashes gets one prefix, after the whole run. */
  lemma ExampleDescendantAxis(e: string, ns: string)
    requires e == "//item" && ns == "n"
    ensures ComposeWithNamespace(e, ns) == "//" + "n:" + "item"
  {
    MatchesOfDescendantExample(e);
    assert RunEnds([Match(0, 2, 2)]) == [2];
    InsertOnce(e, 2, ns + ":");
    assert e[..2] == "//" && ns + ":" == "n:" && e[2..] == "item";
  }

  /** The template a namespace of `$&` produces: the first group, the
      whole match, a colon, the second group. */
  lemma AmpersandTemplate(m: MatchInfo)
    requires ValidMatch(m) && |m.captures| == 2
    ensures GetSubstitution(Template("$&"), m)
              == CaptureText(m.captures[0]) + m.matched + ":" + CaptureText(m.captures[1])
  {
    var t := Template("$&");
    assert t == "$1$&:$2";
    assert GetSubstitution(t, m) == Expand(t, 0, m);
    assert Expand(t, 7, m) == "";
    assert Expand(t, 5, m) == CaptureText(m.captures[1]);
    assert Expand(t, 4, m) == ":" + CaptureText(m.captures[1]);
    assert Expand(t, 2, m) == m.matched + ":" + CaptureText(m.captures[1]);
  }

  /** A `$` in the namespace is read as part of the template: `$&` stands
      for the matched text, so `/x` becomes the slash, the matched slash
      again, the colon, then `x`. */
  lemma ExampleDollarInNamespace(e: string, ns: string)
    requires e == "/x" && ns == "$&"
    ensures ComposeWithNamespace(e, ns) == "/" + "/" + ":" + "x"
  {
    assert NextSlash(e, 0) == Some(0);
    assert RunEnd(e, 0) == 1;
    assert GroupEnd(e, 1) == 1 by {
      assert LineEnd(e, 1) == 2;
      assert LastIndexOf(e, ']', 1, 2) == None;
    }
    assert MatchesFrom(e, 1) == [];
    var m := Match(0, 1, 1);
    var t := Template(ns);
    assert Assemble(e, 0, [m], t) == e[0..0] + GetSubstitution(t, Info(e, m)) + e[1..] by {
      assert [m][1..] == [];
    }
    AmpersandTemplate(Info(e, m));
    assert Info(e, m).matched == "/" && Info(e, m).captures == [Some("/"), None];
    assert e[0..0] == "" && e[1..] == "x";
  }
}
